=== FILE: README.md ===
# fav-movies, modelled in Dafny

fav-movies is a small web service. Users register with a name and a password
and log in to get a bearer token. With that token they keep a list of
favourite movies. Movie data comes from an upstream movie provider (the
unofficial Kinopoisk API). It is fetched on first reference and then kept in a
local table for good.

This project models the core of the service:

- **Credentials and tokens** (`AuthSchemas`):
  - the length bounds of a credentials body;
  - the HS256-signed JWT (RFC 7519, with HS256 defined in section 3.2 of RFC 7518) that carries `profile_id` and an `exp` thirty minutes after issue;
  - decoding in the library's order: parse, then algorithm, then signature, then expiry, with `exp <= now` counting as expired (section 4.1.4 of RFC 7519, no leeway);
  - `from_token`, which translates only the expiry error.
- **Profiles and password hashes** (`AuthModels`, `Database`):
  - a password is hashed as the SHA-256 hex digest of the ASCII bytes of password + salt, with a fresh UUID-4 salt;
  - registration relies on the unique index on `profile.name`;
  - login joins a profile with its hash row by name;
  - a non-ASCII password makes the encoding step fail. For an unknown name that failure is never reached.
- **The movie cache and the favourite list** (`MovieModels`, `Database`):
  - the movie table is insert-only, keyed by the `kinopoiskId` the upstream body carries;
  - favourites are rows with a unique (profile, movie) pair and foreign keys on both;
  - the listing is the join of a profile's rows with the movie table, taken in insertion order (see "Left out").
- **The request handlers** (`AuthDependencies`, `AuthControllers`, `MovieControllers`):
  - the bearer-token gate;
  - register, login and profile reads;
  - both upstream searches with their status mapping (200 gives the body, 401 gives BadGateway, anything else InternalServerError);
  - the favourite-add flow (on a hit no upstream request, on a miss exactly one), favourite removal and the listing.

The store is one object, `Database.Db`, holding these tables:

- `profiles`;
- the name index;
- `password_hash`;
- `movie`;
- `favorite`;
- the two id sequences.

Its methods are the model classes' queries and inserts. `Db.Valid()` is the schema's constraints (keys, the unique name, the pair constraint and the foreign keys), plus invariants the code keeps that no schema constraint enforces: every profile has exactly one credential row, each row uses SHA-256 with a UUID salt, and every id lies below its sequence's next value. Every operation preserves it. Each request is one unit of work: when it fails, its writes are undone. Id sequences are not rolled back, so an insert attempt consumes its id even when it fails.

A `PasswordHash` row is a class, because `_hash_password` assigns its salt, algorithm and value in place. The upstream provider is a class whose answers are fixed functions of the request, with a ghost counter of requests sent.

Some things are parameters of the model:

- the clock (`now`, in seconds);
- the fresh salt;
- the SHA-256 hex digest;
- the HMAC;
- `json.dumps`;
- the upstream answers.

The model relies on nothing about these parameters beyond what each lemma names in its own preconditions. For example, two different digests are assumed only where a lemma needs them.

Three behaviours of the code are easy to miss:

- Favourite-add caches the movie and links it in one unit of work. No commit sits between `Movie.add` and `Favorite.add` (src/movies/controllers.py:28-35), so a failed link also rolls back the movie row. The row is lost only when the link fails on a foreign key (a deleted profile). A link that fails on a duplicate pair always follows a cache hit, so there was no insert to roll back.
- A failing `Favorite.add` is reported as FavoriteAlreadyExists for every integrity error. That includes a missing profile or movie, not only a duplicate pair.
- A fetched body is stored under its own `kinopoiskId`, not under the requested id. The favourite links that id.

## Model

| member | source | states |
|---|---|---|
| AuthSchemas.ValidateCredentials | src/auth/schemas.py:15-17 | a body is accepted exactly when its name has 5..100 characters and its password 10..200, and is then passed on unchanged |
| AuthSchemas.Encode | src/auth/schemas.py:59 | the token carries the given claims, an HS256 header, and the MAC of header and claims under the key |
| AuthSchemas.Decode | src/auth/schemas.py:46 | success exactly for a token signed with HS256 under the key and not expired, yielding its claims; otherwise in order: unparsable text, disallowed algorithm, bad signature, expired |
| AuthSchemas.IssueToken | src/auth/schemas.py:52-59 | the issued token names the profile, expires thirty minutes after `now`, and is signed under the key |
| AuthSchemas.FromToken | src/auth/schemas.py:42-50 | success exactly for a signed, unexpired token carrying `profile_id`; expiry becomes ExpiredToken; a signed, unexpired token without `profile_id` gives TokenPayloadInvalid; every other decoding error passes through unchanged |
| AuthSchemas.IssueThenDecode | src/auth/schemas.py:42-59 | a token decodes back to the payload it was issued for, under the same key, until it expires |
| AuthSchemas.IssuedTokenExpires | src/auth/schemas.py:46-48 | from thirty minutes after issue on, the token is refused as ExpiredToken |
| AuthSchemas.TamperedClaimsRejected | src/auth/schemas.py:46 | claims changed after signing are refused as a bad signature, expired or not |
| AuthSchemas.ForeignKeyRejected | src/auth/schemas.py:46 | a token signed under another key is refused as a bad signature |
| AuthModels.EncodeAscii | src/auth/models.py:84 | encoding succeeds exactly on ASCII text, one byte per character with the character's code |
| AuthModels.SaltedAscii | src/auth/models.py:82-84 | password + UUID salt is encodable exactly when the password is ASCII |
| AuthModels.PasswordHash.GenerateHash | src/auth/models.py:81-85 | the digest of the ASCII bytes of password + salt under the row's algorithm; fails exactly when that text is not ASCII |
| AuthModels.PasswordHash.Check | src/auth/models.py:92-94 | true exactly when the salted digest of the password equals the stored value; the encoding error otherwise passes through |
| AuthModels.PasswordHash.HashPassword | src/auth/models.py:87-90 | the salt and SHA-256 are set in any case; for an ASCII password the stored value is its salted digest, so the row then accepts that password |
| AuthModels.PasswordHash.constructor | src/auth/models.py:103 | a new row for the profile, with no salt and no value yet |
| AuthModels.CheckRejectsOtherDigest | src/auth/models.py:92-94 | an ASCII password is refused exactly when its salted digest differs from the stored value |
| Database.Db.NamesUnique | src/auth/models.py:26 | no two profiles share a name |
| Database.Db.GetProfile | src/auth/models.py:32-39 | the profile with that id, or ProfileNotFound exactly when there is none |
| Database.Db.GetByCredentials | src/auth/models.py:42-53 | success exactly when the name is indexed and its hash row accepts the password, yielding that profile; an unknown name gives ProfileNotFound |
| Database.Db.WrongPasswordRefused | src/auth/models.py:50-51 | a known name with an ASCII password of a different salted digest gives ProfileNotFound |
| Database.Db.UnknownNameLikeWrongPassword | src/auth/models.py:50-51 | an unknown name and a wrong ASCII password get the same answer |
| Database.Db.NonAsciiPasswordOnKnownName | src/auth/models.py:48-53 | a non-ASCII password gives the encoding error for a known name but ProfileNotFound for an unknown one |
| Database.Db.NewPasswordHash | src/auth/models.py:96-107 | for an ASCII password, a new row for the profile with the fresh salt, SHA-256 and the salted digest, which accepts the password; nothing else changes |
| Database.Db.Register | src/auth/models.py:55-66 | fails with DuplicateProfile exactly on a taken name, and with the encoding error on a non-ASCII password, leaving the tables as they were; otherwise adds exactly one profile with the next id, and login with the same credentials then succeeds; the profile id sequence advances by one in every case |
| Database.Db.GetMovie | src/movies/models.py:30-37 | the stored row for the id, or none exactly when it is absent |
| Database.Db.AddMovie | src/movies/models.py:23-28 | stores the serialised body under its `kinopoiskId`; a body without one, or an id already stored, fails and changes nothing; stored rows are never replaced |
| Database.Db.GetFavorite | src/movies/models.py:73-86 | a row of the pair when one exists, none exactly when none does |
| Database.Db.AddFavorite | src/movies/models.py:62-71 | fails with FavoriteAlreadyExists exactly when the pair exists or the profile or movie is missing; otherwise appends one row with the next id, which is then found; the id sequence advances either way |
| Database.Db.RemoveFavorite | src/movies/models.py:52-60 | deletes every row of the pair and no other; the table shrinks by one exactly when the pair was present |
| Database.Db.GetAllFavorites | src/movies/models.py:88-101 | one entry per joined row of the profile, in insertion order, each the stored movie's data |
| MovieModels.FindFavorite | src/movies/models.py:74-86 | a row of the pair exactly when one exists |
| MovieModels.FindFavoriteUnique | src/movies/models.py:48-50 | under the unique constraint the row found is the only row of the pair |
| MovieModels.DeleteMatchingRows | src/movies/models.py:52-60 | the rows left are exactly the rows not of the pair |
| MovieModels.DeleteNothing | src/movies/models.py:52-60 | deleting an absent pair leaves the table as it was |
| MovieModels.DeleteKeepsLedger | src/movies/models.py:48-60 | deletion keeps the pair constraint and increasing ids |
| MovieModels.DeleteCount | src/movies/models.py:48-60 | under the pair constraint deletion removes exactly one row when the pair is present, none otherwise |
| MovieModels.AppendKeepsLedger | src/movies/models.py:48-71 | appending a new pair with a larger id keeps the constraints |
| MovieModels.JoinedIds | src/movies/models.py:89-101 | the listing names only stored movies and has at most one entry per row |
| MovieModels.MoviesData | src/movies/models.py:101 | one view per id, in order, each the stored movie's data |
| MovieModels.JoinedIdsForeignKey | src/movies/models.py:89-101 | under the foreign key the join loses no row: the listing is the movie ids of the profile's rows |
| MovieModels.JoinedIdsMember | src/movies/models.py:89-101 | a movie is listed exactly when it is stored and the profile has a row for it |
| MovieModels.JoinedIdsNone | src/movies/models.py:89-101 | a profile without rows has an empty listing, not an error |
| MovieModels.JoinedIdsAppend | src/movies/models.py:89-101 | appending a row adds its movie at the end of its profile's listing and nothing to the others |
| MovieModels.JoinedIdsNewMovie | src/movies/models.py:89-101 | storing a movie leaves every listing unchanged |
| MovieModels.JoinedIdsDelete | src/movies/models.py:52-101 | removing a pair removes that movie from the profile's listing and nothing else |
| MovieModels.JoinedIdsDeleteOther | src/movies/models.py:52-101 | removing a pair leaves every other profile's listing unchanged |
| MovieModels.JoinedIdsDistinct | src/movies/models.py:48-101 | under the pair constraint a listing names each movie at most once |
| AuthDependencies.GetToken | src/auth/dependencies.py:22-35 | success exactly when the token decodes and its profile exists, returning the decoded payload; a bad signature becomes InvalidToken and only that; a decoded token for a missing profile gives ProfileNotFound; every other decoding error is returned as from_token gave it |
| AuthDependencies.GateAcceptsIssuedToken | src/auth/dependencies.py:22-35 | a token issued for an existing profile passes until it expires |
| AuthDependencies.GateRejectsExpired | src/auth/dependencies.py:27-30 | an expired token is refused as ExpiredToken whether or not its profile exists |
| AuthDependencies.GateRejectsTampered | src/auth/dependencies.py:27-30 | tampered claims are refused as InvalidToken |
| AuthDependencies.GateRejectsUnknownProfile | src/auth/dependencies.py:32-33 | a valid token for a missing profile is refused with ProfileNotFound |
| AuthDependencies.GateDecodesBeforeLookup | src/auth/dependencies.py:27-33 | a token that does not decode gets the same error against any store |
| AuthControllers.Register | src/auth/controllers.py:15-18 | the public view of the new profile; fails exactly on a taken name or a non-ASCII password; afterwards the credentials log in to that profile, and every other profile, name and credential row is kept as it was; the profile id sequence advances by one either way |
| AuthControllers.Login | src/auth/controllers.py:21-26 | a token exactly when the credentials identify a profile, naming it, signed, and expiring thirty minutes from now; otherwise the lookup's error |
| AuthControllers.GetProfile | src/auth/controllers.py:29-32 | the public view (id, name, creation time) of the token's profile, or ProfileNotFound exactly when it is gone |
| AuthControllers.LoginOpensOwnProfile | src/auth/controllers.py:21-32 | a login token passes the gate until expiry and opens the profile with the name logged in with |
| AuthControllers.RegisterThenLogin | src/auth/controllers.py:15-26 | on a fresh store, register then login yields a token for profile 1 that opens it, and a wrong password is refused with ProfileNotFound |
| MovieControllers.ResponseOutcome | src/movies/controllers.py:44-48 | 200 gives the body, 401 gives BadGateway, every other status InternalServerError |
| MovieControllers.Upstream.MovieSearchById | src/movies/controllers.py:51-58 | exactly one request, its answer mapped by status |
| MovieControllers.Upstream.MovieSearchByKeyword | src/movies/controllers.py:38-48 | exactly one request, its answer mapped by status, nothing cached |
| MovieControllers.Resolve | src/movies/controllers.py:29-32 | a hit yields the stored row; a miss with status 200 succeeds exactly when the body carries a `kinopoiskId` not yet stored, giving the serialised body under that id; otherwise MovieIdMissing or MovieIdConflict; a failed status passes its error through |
| MovieControllers.ResolveHitIgnoresUpstream | src/movies/controllers.py:29-30 | a stored movie resolves the same whatever the upstream would answer |
| MovieControllers.ResolveThenHit | src/movies/controllers.py:29-32 | once a fetched movie is cached under its requested id, the next resolution is a hit with the same row |
| MovieControllers.ResolveUnderForeignId | src/movies/models.py:24-28 | a body carrying another id is stored under that id, so the requested id misses again and the next fetch conflicts |
| MovieControllers.ResolveMovie | src/movies/controllers.py:29-32 | the outcome is Resolve's; the movie table grows by the resolved row only on a miss; one upstream request on a miss, none on a hit |
| MovieControllers.AddFavourite | src/movies/controllers.py:28-35 | resolve errors pass through; otherwise success exactly when the pair is new and the profile exists, appending one row and the movie's data to the listing; on failure neither table changes; one upstream request exactly on a miss; the favourite id sequence advances exactly when the link is attempted |
| MovieControllers.ListingAfterLink | src/movies/controllers.py:34-35 | after a link the listing is the old listing with the linked movie's data appended |
| MovieControllers.RemoveFavorite | src/movies/controllers.py:61-66 | FavoriteNotFound exactly when the pair is absent, with nothing changed; otherwise the row goes, the movie leaves that profile's listing, and other listings are unchanged |
| MovieControllers.GetFavorites | src/movies/controllers.py:22-25 | exactly the listing Favorite.get_all gives for the token's profile, one entry per joined row; reading it changes nothing |
| MovieControllers.FavoritesListing | src/movies/controllers.py:22-25 | in a consistent store the listing has one entry per row of the profile, in insertion order, each the movie's data, with no movie twice |

## Left out

- HTTP routing, request and response schemas beyond the credential bounds, error-to-status formatting, configuration and environment loading: these are plumbing around the core.
- The aiohttp sessions, URLs and API-key header of the upstream calls. The upstream is a pair of functions from request to (status, body). Network failures and timeouts are not modelled.
- SHA-256, HMAC-SHA-256, base64url and JSON serialisation are parameters. Nothing is proved about their internals. Collision-freedom is assumed only where a lemma states it as a precondition.
- `uuid.uuid4()` and `utcnow()` are parameters: the salt is any 36-character UUID text, and times are integer seconds.
- Async execution and concurrency. In particular the race of two requests that both miss the cache for the same id is not modelled. A sequential second request is covered by `MovieControllers.ResolveThenHit`.
- The session's commit and rollback are modelled as all-or-nothing writes per request. The database's own transaction machinery is not modelled.
- Movie bodies are opaque apart from their `kinopoiskId`. The body's JSON structure is not modelled.
- Names and passwords holding lone surrogate code points: a Python string can contain them, but a Dafny character is a Unicode scalar value and cannot. For every other text, Pydantic's length and the model's length both count code points.
- The order of the favourites listing. `Favorite.get_all` has no ORDER BY, so the database may return the rows in any order, and a new row need not come last. The model takes insertion order. `Database.Db.GetAllFavorites`, `MovieControllers.AddFavourite` ("appended at the end"), `MovieControllers.ListingAfterLink`, `MovieModels.JoinedIdsAppend` and `MovieControllers.FavoritesListing` state that order, which the source does not guarantee. What they state about which movies are listed, and how many times each, holds whatever the order.
- The PostgreSQL column limits. The id columns are 32-bit `Integer()` columns (src/auth/models.py:24, src/movies/models.py:19 and 43), but ids coming from the client are unbounded. In the model all ids are unbounded integers. PostgreSQL `text` also cannot hold U+0000.
- MovieControllers.ResolveMovie and MovieControllers.AddFavourite: a movie id outside the 32-bit range makes `Movie.get` fail in the driver before any upstream request. The model treats such an id as a cache miss and sends one request.
- MovieControllers.RemoveFavorite: with an id outside the 32-bit range the source fails in the driver, but the model answers FavoriteNotFound.
- Database.Db.Register and AuthControllers.Register: a name containing U+0000 passes validation but is rejected by PostgreSQL at the flush. The model registers it.
- The status constants 200 and 401 come from `KPResponse`. src/movies/enums.py is not part of this model.
- Database.Db.GetFavorite: does not model `one_or_none` raising when two rows match, because the unique constraint on the pair rules that out (`MovieModels.FindFavoriteUnique`).
- MovieControllers.GetFavorites: states the contents of the listing only through `Database.Db.GetAllFavorites`; the row-by-row contents are stated by `MovieControllers.FavoritesListing` for a consistent store.

=== FILE: AuthControllers.dfy ===
/** The operations behind the auth routes: registration, login and reading
    one's own profile. */
module AuthControllers {
  import opened Common
  import opened AuthSchemas
  import opened AuthModels
  import opened Database
  import opened AuthDependencies

  /** ProfileData.model_validate(profile, from_attributes=True): the public
      view of a profile row; its use is stated by Register and GetProfile. */
  function ToProfileData(profile: Profile): ProfileData {
    ProfileData(profile.id, profile.name, profile.createdAt)
  }

  /** register: a new profile under the requested name, with its credentials
      stored so that the same name and password log in. */
  method Register(db: Db, credentials: Credentials, salt: string, now: int, digest: HexDigest) returns (r: Result<ProfileData>)
    requires db.Valid() && IsUuidText(salt)
    modifies db
    ensures db.Valid()
    ensures r.Ok? <==> old(credentials.name !in db.nameIndex) && IsAscii(credentials.password)
    ensures r == Err(DuplicateProfile) <==> old(credentials.name in db.nameIndex)
    ensures old(credentials.name !in db.nameIndex) && !IsAscii(credentials.password) ==> r == Err(AsciiEncodeFailed)
    ensures r.Err? ==> r.error in {DuplicateProfile, AsciiEncodeFailed}
    ensures r.Err? ==> db.profiles == old(db.profiles) && db.nameIndex == old(db.nameIndex) && db.passwordHashes == old(db.passwordHashes)
    ensures r.Ok? ==> r.value == ProfileData(old(db.nextProfileId), credentials.name, now)
    ensures r.Ok? ==> db.GetProfile(r.value.id) == Ok(Profile(r.value.id, credentials.name, now))
    ensures r.Ok? ==> db.GetByCredentials(credentials, digest) == Ok(Profile(r.value.id, credentials.name, now))
    ensures r.Ok? ==> db.profiles == old(db.profiles)[r.value.id := Profile(r.value.id, credentials.name, now)]
    ensures r.Ok? ==> db.nameIndex == old(db.nameIndex)[credentials.name := r.value.id]
    ensures r.Ok? ==> db.passwordHashes.Keys == old(db.passwordHashes).Keys + {r.value.id}
    ensures r.Ok? ==> forall id :: id in old(db.passwordHashes) ==> db.passwordHashes[id] == old(db.passwordHashes)[id]
    ensures r.Ok? ==> db.passwordHashes[r.value.id].salt == salt
    ensures db.nextProfileId == old(db.nextProfileId) + 1 && db.nextFavoriteId == old(db.nextFavoriteId)
    ensures db.movies == old(db.movies) && db.favorites == old(db.favorites)
  {
    var profile := db.Register(credentials, salt, now, digest);
    if profile.Err? {
      return Err(profile.error);
    }
    r := Ok(ToProfileData(profile.value));
  }

  /** login: a token for the profile the credentials identify, expiring thirty
      minutes from `now`; the lookup's error when they identify none. */
  function Login(db: Db, credentials: Credentials, now: int, key: string, mac: Mac, digest: HexDigest): (r: Result<Jwt>)
    reads db, db.passwordHashes.Values
    ensures r.Ok? <==> db.GetByCredentials(credentials, digest).Ok?
    ensures r.Ok? ==> SignedWith(r.value, key, mac)
    ensures r.Ok? ==> r.value.claims == Claims(Some(db.GetByCredentials(credentials, digest).value.id), Some(now + TokenLifetime))
    ensures r.Err? ==> r.error == db.GetByCredentials(credentials, digest).error
  {
    match db.GetByCredentials(credentials, digest)
    case Err(e) => Err(e)
    case Ok(profile) => Ok(IssueToken(TokenPayload(profile.id), now, key, mac))
  }

  /** get_profile: the public view of the profile a verified token names. */
  function GetProfile(db: Db, token: TokenPayload): (r: Result<ProfileData>)
    reads db
    ensures r.Ok? <==> token.profileId in db.profiles
    ensures r.Ok? ==> r.value.name == db.profiles[token.profileId].name
    ensures r.Ok? ==> r.value.createdAt == db.profiles[token.profileId].createdAt
    ensures db.Valid() && r.Ok? ==>
              r.value == ProfileData(token.profileId, db.profiles[token.profileId].name, db.profiles[token.profileId].createdAt)
    ensures r.Err? ==> r.error == ProfileNotFound
  {
    match db.GetProfile(token.profileId)
    case Err(e) => Err(e)
    case Ok(profile) => Ok(ToProfileData(profile))
  }

  /** A token obtained by logging in passes the gate until it expires, and the
      profile it opens is the one with the name logged in with. */
  lemma LoginOpensOwnProfile(db: Db, credentials: Credentials, issuedAt: int, now: int, key: string, mac: Mac, digest: HexDigest)
    requires db.Valid()
    requires Login(db, credentials, issuedAt, key, mac, digest).Ok?
    requires now < issuedAt + TokenLifetime
    ensures var gate := GetToken(db, Login(db, credentials, issuedAt, key, mac, digest).value, key, mac, now);
            gate.Ok? && GetProfile(db, gate.value).Ok? && GetProfile(db, gate.value).value.name == credentials.name
  {
    var profile := db.GetByCredentials(credentials, digest).value;
    GateAcceptsIssuedToken(db, profile.id, issuedAt, now, key, mac);
  }

  /** The scenario of a fresh store: registering a name, then logging in with
      the right password, yields a token that opens the new profile; a wrong
      password is refused like an unknown name. */
  method RegisterThenLogin(credentials: Credentials, wrong: Credentials, salt: string, now: int, key: string, mac: Mac, digest: HexDigest)
      returns (db: Db, token: Result<Jwt>)
    requires IsUuidText(salt) && IsAscii(credentials.password)
    requires wrong.name == credentials.name && IsAscii(wrong.password)
    requires digest(SHA256, EncodeAscii(wrong.password + salt).value) != digest(SHA256, EncodeAscii(credentials.password + salt).value)
    ensures db.Valid()
    ensures token.Ok? && GetToken(db, token.value, key, mac, now) == Ok(TokenPayload(1))
    ensures GetProfile(db, TokenPayload(1)) == Ok(ProfileData(1, credentials.name, now))
    ensures Login(db, wrong, now, key, mac, digest) == Err(ProfileNotFound)
  {
    db := new Db();
    var profile := Register(db, credentials, salt, now, digest);
    assert profile == Ok(ProfileData(1, credentials.name, now));
    var login := Login(db, credentials, now, key, mac, digest);
    token := Ok(login.value);
    GateAcceptsIssuedToken(db, 1, now, now, key, mac);
    var row := db.passwordHashes[1];
    assert row.Check(credentials.password, digest) == Ok(true);
    assert row.salt == salt && row.algorithm == SHA256;
    SaltedAscii(wrong.password, salt);
    SaltedAscii(credentials.password, salt);
    assert row.value == digest(SHA256, EncodeAscii(credentials.password + salt).value);
    db.WrongPasswordRefused(wrong, digest);
  }
}

=== FILE: AuthDependencies.dfy ===
/** The bearer-token gate every protected operation runs first: the token
    must decode under the configured key and name a profile that exists. */
module AuthDependencies {
  import opened Common
  import opened AuthSchemas
  import opened Database

  /** get_token: the token's payload, after decoding it and looking the
      profile up. Only a bad signature is reported as InvalidToken; the other
      decoding errors pass through as the decoder raised them, and the profile
      is looked up only after decoding succeeded. */
  function GetToken(db: Db, token: Jwt, key: string, mac: Mac, now: int): (r: Result<TokenPayload>)
    reads db
    ensures r.Ok? <==> FromToken(token, key, mac, now).Ok? && FromToken(token, key, mac, now).value.profileId in db.profiles
    ensures r.Ok? ==> r.value.profileId == token.claims.profileId.value
    ensures r == Err(InvalidToken) <==> FromToken(token, key, mac, now) == Err(SignatureInvalid)
    ensures r == Err(ProfileNotFound) <==> FromToken(token, key, mac, now).Ok? && !r.Ok?
    ensures FromToken(token, key, mac, now).Err? && FromToken(token, key, mac, now) != Err(SignatureInvalid)
            ==> r == FromToken(token, key, mac, now)
    ensures r.Err? ==> r.error in {InvalidToken, ExpiredToken, TokenMalformed, AlgorithmNotAllowed, TokenPayloadInvalid, ProfileNotFound}
  {
    match FromToken(token, key, mac, now)
    case Err(SignatureInvalid) => Err(InvalidToken)
    case Err(e) => Err(e)
    case Ok(payload) =>
      match db.GetProfile(payload.profileId)
      case Err(e) => Err(e)
      case Ok(_) => Ok(payload)
  }

  /** A token issued for an existing profile passes the gate until it expires. */
  lemma GateAcceptsIssuedToken(db: Db, profileId: int, issuedAt: int, now: int, key: string, mac: Mac)
    requires profileId in db.profiles
    requires now < issuedAt + TokenLifetime
    ensures GetToken(db, IssueToken(TokenPayload(profileId), issuedAt, key, mac), key, mac, now) == Ok(TokenPayload(profileId))
  {
    IssueThenDecode(TokenPayload(profileId), issuedAt, now, key, mac);
  }

  /** From thirty minutes after issue on the token is refused as expired,
      whether or not its profile still exists. */
  lemma GateRejectsExpired(db: Db, profileId: int, issuedAt: int, now: int, key: string, mac: Mac)
    requires issuedAt + TokenLifetime <= now
    ensures GetToken(db, IssueToken(TokenPayload(profileId), issuedAt, key, mac), key, mac, now) == Err(ExpiredToken)
  {
    IssuedTokenExpires(TokenPayload(profileId), issuedAt, now, key, mac);
  }

  /** Claims changed after signing are refused as an invalid token. */
  lemma GateRejectsTampered(db: Db, header: Header, signed: Claims, sent: Claims, key: string, mac: Mac, now: int)
    requires header.alg == HS256
    requires mac(key, header, sent) != mac(key, header, signed)
    ensures GetToken(db, Compact(header, sent, mac(key, header, signed)), key, mac, now) == Err(InvalidToken)
  {
    TamperedClaimsRejected(header, signed, sent, key, mac, now);
  }

  /** A valid token for a profile that is not stored is refused with ProfileNotFound. */
  lemma GateRejectsUnknownProfile(db: Db, profileId: int, issuedAt: int, now: int, key: string, mac: Mac)
    requires profileId !in db.profiles
    requires now < issuedAt + TokenLifetime
    ensures GetToken(db, IssueToken(TokenPayload(profileId), issuedAt, key, mac), key, mac, now) == Err(ProfileNotFound)
  {
    IssueThenDecode(TokenPayload(profileId), issuedAt, now, key, mac);
  }

  /** A token that does not decode is refused the same way against any two
      stores: the gate consults the store only after the token checks out. */
  lemma GateDecodesBeforeLookup(db1: Db, db2: Db, token: Jwt, key: string, mac: Mac, now: int)
    requires FromToken(token, key, mac, now).Err?
    ensures GetToken(db1, token, key, mac, now) == GetToken(db2, token, key, mac, now)
    ensures GetToken(db1, token, key, mac, now).Err?
  {
  }
}

=== FILE: AuthModels.dfy ===
/** The rows of the auth component: a profile, and the salted password hash
    that authenticates it. The hash primitive (hashlib's SHA-256 with a hex
    digest) is a parameter of type HexDigest; only ASCII text can be hashed. */
module AuthModels {
  import opened Common

  type Byte = b: int | 0 <= b < 256

  /** The hashing algorithms a password hash can name; SHA-256 is the only one. */
  datatype HashingAlgorithm = SHA256

  /** hashlib.new(algorithm).update(bytes).hexdigest() */
  type HexDigest = (HashingAlgorithm, seq<Byte>) -> string

  datatype Profile = Profile(id: int, name: string, createdAt: int)

  predicate IsAscii(s: string) {
    forall i :: 0 <= i < |s| ==> s[i] as int < 128
  }

  /** str.encode("ascii"): one byte per character, failing on the first
      character outside ASCII. */
  function EncodeAscii(s: string): (r: Result<seq<Byte>>)
    ensures r.Ok? <==> IsAscii(s)
    ensures r.Ok? ==> |r.value| == |s| && forall i :: 0 <= i < |s| ==> r.value[i] == s[i] as int
    ensures r.Err? ==> r.error == AsciiEncodeFailed
  {
    if s == [] then Ok([])
    else if s[0] as int >= 128 then Err(AsciiEncodeFailed)
    else match EncodeAscii(s[1..])
      case Err(e) => Err(e)
      case Ok(rest) => Ok([s[0] as int] + rest)
  }

  lemma {:induction false} AsciiConcat(a: string, b: string)
    ensures IsAscii(a + b) <==> IsAscii(a) && IsAscii(b)
  {
    if IsAscii(a) && IsAscii(b) {
      forall i | 0 <= i < |a + b| ensures (a + b)[i] as int < 128 {
        if i < |a| { assert (a + b)[i] == a[i]; } else { assert (a + b)[i] == b[i - |a|]; }
      }
    }
    if IsAscii(a + b) {
      forall i | 0 <= i < |a| ensures a[i] as int < 128 { assert (a + b)[i] == a[i]; }
      forall i | 0 <= i < |b| ensures b[i] as int < 128 { assert (a + b)[|a| + i] == b[i]; }
    }
  }

  /** The text of a version-4 UUID: 36 characters, lower-case hex digits and hyphens. */
  predicate IsUuidText(s: string) {
    |s| == 36 && forall i :: 0 <= i < |s| ==> s[i] == '-' || '0' <= s[i] <= '9' || 'a' <= s[i] <= 'f'
  }

  /** A password followed by a salt is ASCII exactly when the password is. */
  lemma SaltedAscii(password: string, salt: string)
    requires IsUuidText(salt)
    ensures IsAscii(password + salt) <==> IsAscii(password)
  {
    AsciiConcat(password, salt);
  }

  /** The `password_hash` row of one profile. Its salt, algorithm and value are
      assigned in place when the password is hashed. */
  class PasswordHash {
    const profileId: int
    var algorithm: HashingAlgorithm
    var salt: string
    var value: string

    /** PasswordHash(profile_id=...): a row whose hash is not computed yet. */
    constructor (profileId: int)
      ensures this.profileId == profileId && salt == "" && value == ""
    {
      this.profileId := profileId;
      algorithm := SHA256;
      salt := "";
      value := "";
    }

    /** _generate_hash: the hex digest of the ASCII bytes of password + salt
        under the row's algorithm; fails when that text is not ASCII. */
    function GenerateHash(password: string, digest: HexDigest): (r: Result<string>)
      reads this
      ensures r.Ok? <==> IsAscii(password + salt)
      ensures r.Ok? ==> r.value == digest(algorithm, EncodeAscii(password + salt).value)
      ensures r.Err? ==> r.error == AsciiEncodeFailed
    {
      match EncodeAscii(password + salt)
      case Err(e) => Err(e)
      case Ok(bytes) => Ok(digest(algorithm, bytes))
    }

    /** check: true exactly when the salted digest of `password` is the stored value. */
    function Check(password: string, digest: HexDigest): (r: Result<bool>)
      reads this
      ensures r.Ok? <==> IsAscii(password + salt)
      ensures r.Ok? ==> (r.value <==> digest(algorithm, EncodeAscii(password + salt).value) == value)
      ensures r.Err? ==> r.error == AsciiEncodeFailed
    {
      match GenerateHash(password, digest)
      case Err(e) => Err(e)
      case Ok(h) => Ok(h == value)
    }

    /** _hash_password: a fresh salt, SHA-256, and the salted digest of the
        password. The salt and algorithm are assigned before the digest is
        computed, so they are set even when the password is not ASCII. */
    method HashPassword(password: string, freshSalt: string, digest: HexDigest) returns (r: Result<()>)
      requires IsUuidText(freshSalt)
      modifies this
      ensures salt == freshSalt && algorithm == SHA256
      ensures r.Ok? <==> IsAscii(password)
      ensures r.Ok? ==> value == digest(SHA256, EncodeAscii(password + freshSalt).value)
      ensures r.Ok? ==> Check(password, digest) == Ok(true)
      ensures r.Err? ==> r.error == AsciiEncodeFailed && value == old(value)
    {
      salt := freshSalt;
      algorithm := SHA256;
      SaltedAscii(password, freshSalt);
      var h := GenerateHash(password, digest);
      if h.Err? {
        return Err(h.error);
      }
      value := h.value;
      r := Ok(());
    }
  }

  /** A row whose password is ASCII is refused by check exactly when the salted
      digest of the password differs from the stored one. */
  lemma CheckRejectsOtherDigest(row: PasswordHash, password: string, digest: HexDigest)
    requires IsUuidText(row.salt) && IsAscii(password)
    ensures row.Check(password, digest) == Ok(false)
        <==> digest(row.algorithm, EncodeAscii(password + row.salt).value) != row.value
  {
    SaltedAscii(password, row.salt);
  }
}

=== FILE: AuthSchemas.dfy ===
/** The request and token schemas of the auth component: the length bounds of
    credentials, and the signed token that carries a profile's identity. The
    token is a JWT (RFC 7519) signed with HMAC-SHA-256, "HS256" in section 3.2
    of RFC 7518; its `exp` claim follows section 4.1.4 of RFC 7519. HMAC itself
    is a parameter of type Mac: nothing here depends on how it is computed. */
module AuthSchemas {
  import opened Common

  const NameMinLength := 5
  const NameMaxLength := 100
  const PasswordMinLength := 10
  const PasswordMaxLength := 200

  /** A credentials body as it arrives, before validation. */
  datatype CredentialsBody = CredentialsBody(name: string, password: string)

  predicate WithinBounds(body: CredentialsBody) {
    && NameMinLength <= |body.name| <= NameMaxLength
    && PasswordMinLength <= |body.password| <= PasswordMaxLength
  }

  /** Credentials that passed validation: every value of this type is within the bounds. */
  type Credentials = body: CredentialsBody | WithinBounds(body)
    witness CredentialsBody("aaaaa", "aaaaaaaaaa")

  /** Validation of a credentials body: accepted exactly when both fields are
      within their length bounds, and then unchanged. */
  function ValidateCredentials(body: CredentialsBody): (r: Result<Credentials>)
    ensures r.Ok? <==> 5 <= |body.name| <= 100 && 10 <= |body.password| <= 200
    ensures r.Ok? ==> r.value == body
    ensures r.Err? ==> r.error == CredentialsInvalid
  {
    if WithinBounds(body) then Ok(body) else Err(CredentialsInvalid)
  }

  /** The public view of a profile; `createdAt` in seconds since the epoch. */
  datatype ProfileData = ProfileData(id: int, name: string, createdAt: int)

  // ---------------------------------------------------------------- tokens

  /** Thirty minutes, in seconds. */
  const TokenLifetime := 30 * 60
  const HS256 := "HS256"

  datatype Header = Header(alg: string, typ: string)

  /** The claims of a token: `profile_id` and `exp` (seconds since the epoch),
      each absent when the token does not carry it. */
  datatype Claims = Claims(profileId: Option<int>, exp: Option<int>)

  /** A bearer token: the three parts of a compact JWT, or a text that does not
      parse as one. */
  datatype Jwt = Compact(header: Header, claims: Claims, signature: string) | Unparsable(text: string)

  /** HMAC-SHA-256 of a token's signing input under a key. */
  type Mac = (string, Header, Claims) -> string

  datatype TokenPayload = TokenPayload(profileId: int)

  /** jwt.encode with HS256: the claims signed under `key`. */
  function Encode(claims: Claims, key: string, mac: Mac): (t: Jwt)
    ensures t.Compact? && t.header.alg == HS256 && t.claims == claims
    ensures t.signature == mac(key, t.header, claims)
  {
    var header := Header(HS256, "JWT");
    Compact(header, claims, mac(key, header, claims))
  }

  /** True when the signature of `t` is the MAC of its signing input under `key`,
      with HS256 as the only algorithm allowed. */
  predicate SignedWith(t: Jwt, key: string, mac: Mac) {
    t.Compact? && t.header.alg == HS256 && t.signature == mac(key, t.header, t.claims)
  }

  /** A token with an `exp` claim is expired from the second `exp` on (no leeway). */
  predicate Expired(claims: Claims, now: int) {
    claims.exp.Some? && claims.exp.value <= now
  }

  /** jwt.decode(token, key, algorithms=["HS256"]) at time `now`: the text is
      parsed, then the algorithm, then the signature, then the expiry checked. */
  function Decode(t: Jwt, key: string, mac: Mac, now: int): (r: Result<Claims>)
    ensures r.Ok? <==> SignedWith(t, key, mac) && !Expired(t.claims, now)
    ensures r.Ok? ==> r.value == t.claims
    ensures t.Unparsable? ==> r == Err(TokenMalformed)
    ensures t.Compact? && t.header.alg != HS256 ==> r == Err(AlgorithmNotAllowed)
    ensures t.Compact? && t.header.alg == HS256 && !SignedWith(t, key, mac) ==> r == Err(SignatureInvalid)
    ensures SignedWith(t, key, mac) && Expired(t.claims, now) ==> r == Err(SignatureExpired)
  {
    match t
    case Unparsable(_) => Err(TokenMalformed)
    case Compact(header, claims, signature) =>
      if header.alg != HS256 then Err(AlgorithmNotAllowed)
      else if signature != mac(key, header, claims) then Err(SignatureInvalid)
      else if Expired(claims, now) then Err(SignatureExpired)
      else Ok(claims)
  }

  /** TokenPayload.token: the claims `{profile_id, exp = now + 30 min}` signed
      with HS256 under the configured key. */
  function IssueToken(payload: TokenPayload, now: int, key: string, mac: Mac): (t: Jwt)
    ensures t.Compact? && t.header.alg == HS256
    ensures t.claims == Claims(Some(payload.profileId), Some(now + TokenLifetime))
    ensures SignedWith(t, key, mac)
  {
    Encode(Claims(Some(payload.profileId), Some(now + TokenLifetime)), key, mac)
  }

  /** TokenPayload.from_token: decoding, with only the expiry error translated.
      Every other decoding error reaches the caller as the library raised it. */
  function FromToken(t: Jwt, key: string, mac: Mac, now: int): (r: Result<TokenPayload>)
    ensures r.Ok? <==> SignedWith(t, key, mac) && !Expired(t.claims, now) && t.claims.profileId.Some?
    ensures r.Ok? ==> r.value.profileId == t.claims.profileId.value
    ensures r == Err(ExpiredToken) <==> SignedWith(t, key, mac) && Expired(t.claims, now)
    ensures SignedWith(t, key, mac) && !Expired(t.claims, now) && t.claims.profileId.None? ==> r == Err(TokenPayloadInvalid)
    ensures Decode(t, key, mac, now).Err? && Decode(t, key, mac, now).error != SignatureExpired
            ==> r == Err(Decode(t, key, mac, now).error)
    ensures r.Err? ==> r.error in {TokenMalformed, AlgorithmNotAllowed, SignatureInvalid, ExpiredToken, TokenPayloadInvalid}
  {
    match Decode(t, key, mac, now)
    case Err(SignatureExpired) => Err(ExpiredToken)
    case Err(e) => Err(e)
    case Ok(claims) =>
      if claims.profileId.None? then Err(TokenPayloadInvalid)
      else Ok(TokenPayload(claims.profileId.value))
  }

  /** A token issued for a profile decodes, before its expiry and with the same
      key, to that profile. */
  lemma IssueThenDecode(payload: TokenPayload, issuedAt: int, now: int, key: string, mac: Mac)
    requires now < issuedAt + TokenLifetime
    ensures FromToken(IssueToken(payload, issuedAt, key, mac), key, mac, now) == Ok(payload)
  {
  }

  /** From thirty minutes after issue on, the same token is refused as expired. */
  lemma IssuedTokenExpires(payload: TokenPayload, issuedAt: int, now: int, key: string, mac: Mac)
    requires issuedAt + TokenLifetime <= now
    ensures FromToken(IssueToken(payload, issuedAt, key, mac), key, mac, now) == Err(ExpiredToken)
  {
  }

  /** Claims changed after signing are refused as a bad signature, unless the
      MAC of the changed claims collides with the original one; this holds
      whether or not the token has expired, since the signature is checked first. */
  lemma TamperedClaimsRejected(header: Header, signed: Claims, sent: Claims, key: string, mac: Mac, now: int)
    requires header.alg == HS256
    requires mac(key, header, sent) != mac(key, header, signed)
    ensures FromToken(Compact(header, sent, mac(key, header, signed)), key, mac, now) == Err(SignatureInvalid)
  {
  }

  /** A token signed under another key is refused as a bad signature, unless
      the two MACs collide. */
  lemma ForeignKeyRejected(payload: TokenPayload, issuedAt: int, signKey: string, verifyKey: string, mac: Mac, now: int)
    requires var t := IssueToken(payload, issuedAt, signKey, mac);
             mac(verifyKey, t.header, t.claims) != mac(signKey, t.header, t.claims)
    ensures FromToken(IssueToken(payload, issuedAt, signKey, mac), verifyKey, mac, now) == Err(SignatureInvalid)
  {
  }
}

=== FILE: Common.dfy ===
/** Values shared by every part of the model: the optional and failure-carrying
    results, and the closed set of errors the core can surface. */
module Common {

  datatype Option<+T> = None | Some(value: T)

  /** The outcome of an operation that raises instead of returning. */
  datatype Result<+T> = Ok(value: T) | Err(error: Error)

  /** Every error the core surfaces. The first group is raised by the core
      itself; the second group is raised by a library or the database and
      reaches the caller without translation. */
  datatype Error =
    | DuplicateProfile
    | ProfileNotFound
    | ExpiredToken
    | InvalidToken
    | FavoriteAlreadyExists
    | FavoriteNotFound
    | BadGateway
    | InternalServerError
    // raised by libraries and let through
    | CredentialsInvalid   // request validation of the credentials body
    | AsciiEncodeFailed    // encoding a non-ASCII string as ASCII
    | TokenMalformed       // the token does not parse as a compact JWT
    | AlgorithmNotAllowed  // the token header names an algorithm other than HS256
    | SignatureInvalid     // the signature does not match the signing input
    | SignatureExpired     // the `exp` claim has passed
    | TokenPayloadInvalid  // the verified claims carry no `profile_id`
    | MovieIdMissing       // the upstream body has no `kinopoiskId`
    | MovieIdConflict      // a movie row with that id is already stored
}

=== FILE: Database.dfy ===
/** The relational store behind both components: the `profile`,
    `password_hash`, `movie` and `favorite` tables as fields of one object,
    with the queries and inserts of the model classes as its members.

    Each method is one unit of work: when it fails, the tables are as they were
    before it (the session is rolled back). Generated keys come from sequences
    that a rollback does not return, so an insert attempt consumes its key
    even when it fails. */
module Database {
  import opened Common
  import opened AuthSchemas
  import opened AuthModels
  import opened MovieModels

  class Db {
    var profiles: map<int, Profile>
    /** The unique index on `profile.name`. */
    var nameIndex: map<string, int>
    /** `password_hash`, keyed by its primary key `profile_id`. */
    var passwordHashes: map<int, PasswordHash>
    /** `movie`, keyed by the upstream id. */
    var movies: map<int, Movie>
    /** `favorite`, in insertion order. */
    var favorites: seq<Favorite>
    /** The next values of the `profile.id` and `favorite.id` sequences. */
    var nextProfileId: int
    var nextFavoriteId: int

    /** The schema's constraints, with a profile allowed to lack its
        credential row; that state exists only inside registration. */
    ghost predicate TablesValid()
      reads this, passwordHashes.Values
    {
      && 1 <= nextProfileId && 1 <= nextFavoriteId
      && (forall id :: id in profiles ==> profiles[id].id == id && 1 <= id < nextProfileId)
      && (forall n :: n in nameIndex ==> nameIndex[n] in profiles && profiles[nameIndex[n]].name == n)
      && (forall id :: id in profiles ==> profiles[id].name in nameIndex && nameIndex[profiles[id].name] == id)
      && passwordHashes.Keys <= profiles.Keys
      && (forall id :: id in passwordHashes ==>
            passwordHashes[id].profileId == id && passwordHashes[id].algorithm == SHA256
            && IsUuidText(passwordHashes[id].salt))
      && (forall id :: id in movies ==> movies[id].id == id)
      && LedgerWellFormed(favorites)
      && (forall i :: 0 <= i < |favorites| ==>
            favorites[i].profileId in profiles && favorites[i].movieId in movies
            && 1 <= favorites[i].id < nextFavoriteId)
    }

    /** The store between units of work: every profile has exactly one credential row. */
    ghost predicate Valid()
      reads this, passwordHashes.Values
    {
      TablesValid() && passwordHashes.Keys == profiles.Keys
    }

    /** An empty database. */
    constructor ()
      ensures Valid()
      ensures profiles == map[] && nameIndex == map[] && passwordHashes == map[] && movies == map[] && favorites == []
      ensures nextProfileId == 1 && nextFavoriteId == 1
    {
      profiles, nameIndex, passwordHashes := map[], map[], map[];
      movies, favorites := map[], [];
      nextProfileId, nextFavoriteId := 1, 1;
    }

    /** No two profiles share a name. */
    lemma NamesUnique(a: int, b: int)
      requires Valid() && a in profiles && b in profiles
      requires profiles[a].name == profiles[b].name
      ensures a == b
    {
    }

    // ------------------------------------------------------ Profile, PasswordHash

    /** Profile.get_profile: the row with that id, or ProfileNotFound. */
    function GetProfile(profileId: int): (r: Result<Profile>)
      reads this
      ensures r.Ok? <==> profileId in profiles
      ensures r.Ok? ==> r.value == profiles[profileId]
      ensures Valid() && r.Ok? ==> r.value.id == profileId
      ensures r.Err? ==> r.error == ProfileNotFound
    {
      if profileId in profiles then Ok(profiles[profileId]) else Err(ProfileNotFound)
    }

    /** True when `id` names a profile joined with a credential row that accepts `password`. */
    predicate Authenticates(id: int, password: string, digest: HexDigest)
      reads this, passwordHashes.Values
    {
      id in profiles && id in passwordHashes && passwordHashes[id].Check(password, digest) == Ok(true)
    }

    /** Profile.get_by_credentials: the profile joined with its credential row
        by name, when the row accepts the password. */
    function GetByCredentials(credentials: Credentials, digest: HexDigest): (r: Result<Profile>)
      reads this, passwordHashes.Values
      ensures r.Ok? <==> credentials.name in nameIndex && Authenticates(nameIndex[credentials.name], credentials.password, digest)
      ensures r.Ok? ==> r.value == profiles[nameIndex[credentials.name]]
      ensures Valid() && r.Ok? ==> r.value.name == credentials.name
      ensures credentials.name !in nameIndex ==> r == Err(ProfileNotFound)
      ensures r.Err? ==> r.error in {ProfileNotFound, AsciiEncodeFailed}
    {
      if credentials.name !in nameIndex then Err(ProfileNotFound)
      else
        var id := nameIndex[credentials.name];
        if id !in profiles || id !in passwordHashes then Err(ProfileNotFound)
        else match passwordHashes[id].Check(credentials.password, digest)
          case Err(e) => Err(e)
          case Ok(accepted) => if accepted then Ok(profiles[id]) else Err(ProfileNotFound)
    }

    /** A known name with an ASCII password whose salted digest is not the
        stored one is refused with ProfileNotFound. */
    lemma WrongPasswordRefused(credentials: Credentials, digest: HexDigest)
      requires Valid()
      requires credentials.name in nameIndex && IsAscii(credentials.password)
      requires var row := passwordHashes[nameIndex[credentials.name]];
               row.GenerateHash(credentials.password, digest) != Ok(row.value)
      ensures GetByCredentials(credentials, digest) == Err(ProfileNotFound)
    {
      var id := nameIndex[credentials.name];
      assert id in passwordHashes;
      assert IsUuidText(passwordHashes[id].salt);
      CheckRejectsOtherDigest(passwordHashes[id], credentials.password, digest);
    }

    /** An unknown name and a known name with a wrong ASCII password are
        refused with the same error, so the answer does not tell them apart. */
    lemma UnknownNameLikeWrongPassword(unknown: Credentials, known: Credentials, digest: HexDigest)
      requires Valid()
      requires unknown.name !in nameIndex
      requires known.name in nameIndex && IsAscii(known.password)
      requires var row := passwordHashes[nameIndex[known.name]];
               row.GenerateHash(known.password, digest) != Ok(row.value)
      ensures GetByCredentials(unknown, digest) == GetByCredentials(known, digest)
    {
      WrongPasswordRefused(known, digest);
    }

    /** A non-ASCII password is refused with ProfileNotFound for an unknown
        name but with the encoding error for a known one, so that error
        reveals that the name is registered. */
    lemma NonAsciiPasswordOnKnownName(credentials: Credentials, digest: HexDigest)
      requires Valid()
      requires !IsAscii(credentials.password)
      ensures GetByCredentials(credentials, digest)
           == if credentials.name in nameIndex then Err(AsciiEncodeFailed) else Err(ProfileNotFound)
    {
      if credentials.name in nameIndex {
        var id := nameIndex[credentials.name];
        assert id in passwordHashes;
        assert IsUuidText(passwordHashes[id].salt);
        SaltedAscii(credentials.password, passwordHashes[id].salt);
      }
    }

    /** PasswordHash.new_object: a credential row for a profile, holding the
        salted digest of the password, inserted into the table. */
    method NewPasswordHash(password: string, profileId: int, salt: string, digest: HexDigest) returns (r: Result<PasswordHash>)
      requires TablesValid() && IsUuidText(salt)
      requires profileId in profiles && profileId !in passwordHashes
      modifies this
      ensures TablesValid()
      ensures r.Ok? <==> IsAscii(password)
      ensures r.Err? ==> r.error == AsciiEncodeFailed && unchanged(this)
      ensures r.Ok? ==> fresh(r.value) && passwordHashes == old(passwordHashes)[profileId := r.value]
      ensures r.Ok? ==> r.value.profileId == profileId && r.value.salt == salt && r.value.algorithm == SHA256
      ensures r.Ok? ==> r.value.value == digest(SHA256, EncodeAscii(password + salt).value)
      ensures r.Ok? ==> r.value.Check(password, digest) == Ok(true)
      ensures profiles == old(profiles) && nameIndex == old(nameIndex) && nextProfileId == old(nextProfileId)
      ensures movies == old(movies) && favorites == old(favorites) && nextFavoriteId == old(nextFavoriteId)
    {
      var row := new PasswordHash(profileId);
      var hashed := row.HashPassword(password, salt, digest);
      if hashed.Err? {
        return Err(hashed.error);
      }
      passwordHashes := passwordHashes[profileId := row];
      r := Ok(row);
    }

    /** Profile.register: the profile row first, refused by the unique index
        when the name is taken; then its credential row. Both are kept or
        neither. */
    method Register(credentials: Credentials, salt: string, now: int, digest: HexDigest) returns (r: Result<Profile>)
      requires Valid() && IsUuidText(salt)
      modifies this
      ensures Valid()
      ensures r.Err? <==> old(credentials.name in nameIndex) || !IsAscii(credentials.password)
      ensures r == Err(DuplicateProfile) <==> old(credentials.name in nameIndex)
      ensures old(credentials.name !in nameIndex) && !IsAscii(credentials.password) ==> r == Err(AsciiEncodeFailed)
      ensures r.Err? ==> r.error in {DuplicateProfile, AsciiEncodeFailed}
      ensures r.Err? ==> profiles == old(profiles) && nameIndex == old(nameIndex) && passwordHashes == old(passwordHashes)
      ensures r.Ok? ==> r.value == Profile(old(nextProfileId), credentials.name, now) && r.value.id !in old(profiles)
      ensures r.Ok? ==> profiles == old(profiles)[r.value.id := r.value]
      ensures r.Ok? ==> nameIndex == old(nameIndex)[credentials.name := r.value.id]
      ensures r.Ok? ==> passwordHashes.Keys == old(passwordHashes).Keys + {r.value.id}
      ensures r.Ok? ==> forall id :: id in old(passwordHashes) ==> passwordHashes[id] == old(passwordHashes)[id]
      ensures r.Ok? ==> fresh(passwordHashes[r.value.id]) && passwordHashes[r.value.id].salt == salt
      ensures r.Ok? ==> GetByCredentials(credentials, digest) == Ok(r.value)
      ensures nextProfileId == old(nextProfileId) + 1
      ensures movies == old(movies) && favorites == old(favorites) && nextFavoriteId == old(nextFavoriteId)
    {
      var id := nextProfileId;
      nextProfileId := nextProfileId + 1;
      if credentials.name in nameIndex {
        return Err(DuplicateProfile);
      }
      var savedProfiles, savedNames := profiles, nameIndex;
      var profile := Profile(id, credentials.name, now);
      profiles := profiles[id := profile];
      nameIndex := nameIndex[credentials.name := id];
      var row := NewPasswordHash(credentials.password, id, salt, digest);
      if row.Err? {
        // the unit of work is rolled back
        profiles, nameIndex := savedProfiles, savedNames;
        return Err(row.error);
      }
      r := Ok(profile);
    }

    // ------------------------------------------------------------ Movie, Favorite

    /** Movie.get: the row with that id, if any. */
    function GetMovie(movieId: int): (r: Option<Movie>)
      reads this
      ensures r.Some? <==> movieId in movies
      ensures r.Some? ==> r.value == movies[movieId]
      ensures Valid() && r.Some? ==> r.value.id == movieId
    {
      if movieId in movies then Some(movies[movieId]) else None
    }

    /** Movie.add: a row keyed by the body's `kinopoiskId`, holding the
        serialised body. The key is supplied, not generated. */
    method AddMovie(data: Payload, dumps: Serializer) returns (r: Result<Movie>)
      requires Valid()
      modifies this
      ensures Valid()
      ensures r.Ok? <==> data.kinopoiskId.Some? && data.kinopoiskId.value !in old(movies)
      ensures data.kinopoiskId.None? ==> r == Err(MovieIdMissing)
      ensures data.kinopoiskId.Some? && data.kinopoiskId.value in old(movies) ==> r == Err(MovieIdConflict)
      ensures r.Err? ==> movies == old(movies)
      ensures r.Ok? ==> data.kinopoiskId == Some(r.value.id) && r.value.id !in old(movies)
      ensures r.Ok? ==> r.value.data == dumps(data) && movies == old(movies)[r.value.id := r.value]
      ensures InsertOnly(old(movies), movies)
      ensures profiles == old(profiles) && nameIndex == old(nameIndex) && passwordHashes == old(passwordHashes)
      ensures favorites == old(favorites) && nextProfileId == old(nextProfileId) && nextFavoriteId == old(nextFavoriteId)
    {
      if data.kinopoiskId.None? {
        return Err(MovieIdMissing);
      }
      var movie := Movie(data.kinopoiskId.value, dumps(data));
      if movie.id in movies {
        return Err(MovieIdConflict);
      }
      movies := movies[movie.id := movie];
      r := Ok(movie);
    }

    /** Favorite.get: a row for the pair, if there is one. */
    function GetFavorite(movieId: int, profileId: int): (r: Option<Favorite>)
      reads this
      ensures r.None? <==> forall i :: 0 <= i < |favorites| ==> !Matches(favorites[i], movieId, profileId)
      ensures r.Some? ==> r.value in favorites && Matches(r.value, movieId, profileId)
    {
      FindFavorite(favorites, movieId, profileId)
    }

    /** Favorite.add: a new row for the pair. Any constraint violation is
        reported as FavoriteAlreadyExists: the pair already present, and also
        a profile or movie that does not exist. */
    method AddFavorite(movieId: int, profileId: int) returns (r: Result<Favorite>)
      requires Valid()
      modifies this
      ensures Valid()
      ensures r.Err? <==> old(GetFavorite(movieId, profileId)).Some? || profileId !in profiles || movieId !in movies
      ensures r.Err? ==> r.error == FavoriteAlreadyExists && favorites == old(favorites)
      ensures r.Ok? ==> r.value == Favorite(old(nextFavoriteId), profileId, movieId)
      ensures r.Ok? ==> favorites == old(favorites) + [r.value]
      ensures r.Ok? ==> GetFavorite(movieId, profileId) == Some(r.value)
      ensures nextFavoriteId == old(nextFavoriteId) + 1
      ensures profiles == old(profiles) && nameIndex == old(nameIndex) && passwordHashes == old(passwordHashes)
      ensures movies == old(movies) && nextProfileId == old(nextProfileId)
    {
      var row := Favorite(nextFavoriteId, profileId, movieId);
      nextFavoriteId := nextFavoriteId + 1;
      if FindFavorite(favorites, movieId, profileId).Some? || profileId !in profiles || movieId !in movies {
        return Err(FavoriteAlreadyExists);
      }
      AppendKeepsLedger(favorites, row);
      favorites := favorites + [row];
      FindFavoriteUnique(favorites, movieId, profileId);
      assert favorites[|favorites| - 1] == row;
      r := Ok(row);
    }

    /** Favorite.remove: deletes every row of the pair and no other. */
    method RemoveFavorite(movieId: int, profileId: int)
      requires Valid()
      modifies this
      ensures Valid()
      ensures favorites == DeleteMatching(old(favorites), movieId, profileId)
      ensures forall f :: f in favorites <==> f in old(favorites) && !Matches(f, movieId, profileId)
      ensures GetFavorite(movieId, profileId).None?
      ensures |favorites| == |old(favorites)| - (if old(GetFavorite(movieId, profileId)).Some? then 1 else 0)
      ensures profiles == old(profiles) && nameIndex == old(nameIndex) && passwordHashes == old(passwordHashes)
      ensures movies == old(movies) && nextProfileId == old(nextProfileId) && nextFavoriteId == old(nextFavoriteId)
    {
      DeleteMatchingRows(favorites, movieId, profileId);
      DeleteKeepsLedger(favorites, movieId, profileId);
      DeleteCount(favorites, movieId, profileId);
      favorites := DeleteMatching(favorites, movieId, profileId);
      assert forall i :: 0 <= i < |favorites| ==> favorites[i] in old(favorites);
    }

    /** Favorite.get_all: the stored movie of each of the profile's rows, one
        per row, in insertion order; empty when the profile has none. */
    function GetAllFavorites(profileId: int): (r: seq<MovieData>)
      reads this
      ensures var ids := JoinedIds(favorites, movies, profileId);
              |r| == |ids| && forall i :: 0 <= i < |r| ==> r[i] == MovieData(movies[ids[i]].data)
    {
      MoviesData(JoinedIds(favorites, movies, profileId), movies)
    }
  }
}

=== FILE: MovieControllers.dfy ===
/** The operations behind the movie routes: the two upstream searches, the
    favourite-add flow that caches a movie on first reference, and removing
    and listing favourites. The upstream provider is an object whose answers
    are fixed functions of the request; a ghost counter records how many
    requests were sent to it. */
module MovieControllers {
  import opened Common
  import opened AuthSchemas
  import opened MovieModels
  import opened Database

  /** The upstream status codes the flow distinguishes. */
  const StatusOk := 200
  const StatusUnauthorized := 401

  /** An upstream HTTP response: its status code and its JSON body. */
  datatype Response = Response(status: int, body: Payload)

  /** Movies(movies=...): a profile's listing. */
  datatype Movies = Movies(movies: seq<MovieData>)

  /** The status mapping of both searches: 401 is a gateway failure, any
      other status but 200 an internal error, and 200 yields the body. */
  function ResponseOutcome(response: Response): (r: Result<Payload>)
    ensures r.Ok? <==> response.status == StatusOk
    ensures r.Ok? ==> r.value == response.body
    ensures r == Err(BadGateway) <==> response.status == StatusUnauthorized
    ensures r == Err(InternalServerError) <==> response.status != StatusOk && response.status != StatusUnauthorized
  {
    if response.status == StatusUnauthorized then Err(BadGateway)
    else if response.status != StatusOk then Err(InternalServerError)
    else Ok(response.body)
  }

  /** The upstream movie provider. */
  class Upstream {
    /** The answer to a fetch by id, and to a search by keyword. */
    const byId: int -> Response
    const byKeyword: string -> Response
    /** The number of requests sent so far. */
    ghost var calls: nat

    constructor (byId: int -> Response, byKeyword: string -> Response)
      ensures this.byId == byId && this.byKeyword == byKeyword && calls == 0
    {
      this.byId := byId;
      this.byKeyword := byKeyword;
      calls := 0;
    }

    /** movie_search_by_id: one request, its status mapped. */
    method MovieSearchById(movieId: int) returns (r: Result<Payload>)
      modifies this
      ensures calls == old(calls) + 1
      ensures r == ResponseOutcome(byId(movieId))
    {
      calls := calls + 1;
      var response := byId(movieId);
      if response.status == StatusUnauthorized {
        return Err(BadGateway);
      }
      if response.status != StatusOk {
        return Err(InternalServerError);
      }
      r := Ok(response.body);
    }

    /** movie_search_by_keyword: one request, its status mapped; nothing is cached. */
    method MovieSearchByKeyword(keyword: string) returns (r: Result<Payload>)
      modifies this
      ensures calls == old(calls) + 1
      ensures r == ResponseOutcome(byKeyword(keyword))
    {
      calls := calls + 1;
      var response := byKeyword(keyword);
      if response.status == StatusUnauthorized {
        return Err(BadGateway);
      }
      if response.status != StatusOk {
        return Err(InternalServerError);
      }
      r := Ok(response.body);
    }
  }

  /** The movie the favourite-add flow settles on: the stored row on a hit;
      on a miss, the fetched body stored under the id the body itself carries. */
  function Resolve(movies: map<int, Movie>, fetch: int -> Response, movieId: int, dumps: Serializer): (r: Result<Movie>)
    ensures movieId in movies ==> r == Ok(movies[movieId])
    ensures movieId !in movies && r.Ok? ==>
              && fetch(movieId).status == StatusOk
              && fetch(movieId).body.kinopoiskId == Some(r.value.id)
              && r.value.id !in movies
              && r.value.data == dumps(fetch(movieId).body)
    ensures movieId !in movies && fetch(movieId).status != StatusOk ==> r == Err(ResponseOutcome(fetch(movieId)).error)
    ensures movieId !in movies && fetch(movieId).status == StatusOk ==>
              (r.Ok? <==> fetch(movieId).body.kinopoiskId.Some? && fetch(movieId).body.kinopoiskId.value !in movies)
    ensures movieId !in movies && fetch(movieId).status == StatusOk && fetch(movieId).body.kinopoiskId.None?
            ==> r == Err(MovieIdMissing)
    ensures movieId !in movies && fetch(movieId).status == StatusOk && fetch(movieId).body.kinopoiskId.Some?
            ==> (fetch(movieId).body.kinopoiskId.value in movies ==> r == Err(MovieIdConflict))
    ensures r.Err? ==> r.error in {BadGateway, InternalServerError, MovieIdMissing, MovieIdConflict}
  {
    if movieId in movies then Ok(movies[movieId])
    else match ResponseOutcome(fetch(movieId))
      case Err(e) => Err(e)
      case Ok(body) =>
        if body.kinopoiskId.None? then Err(MovieIdMissing)
        else if body.kinopoiskId.value in movies then Err(MovieIdConflict)
        else Ok(Movie(body.kinopoiskId.value, dumps(body)))
  }

  /** A stored movie is resolved without consulting the upstream: any two
      upstreams give the same answer. */
  lemma ResolveHitIgnoresUpstream(movies: map<int, Movie>, fetch1: int -> Response, fetch2: int -> Response, movieId: int, dumps: Serializer)
    requires movieId in movies
    ensures Resolve(movies, fetch1, movieId, dumps) == Resolve(movies, fetch2, movieId, dumps) == Ok(movies[movieId])
  {
  }

  /** Once a fetched movie is stored under the id it was requested by, the
      next resolution of that id is a hit returning the same row, whatever the
      upstream answers then. */
  lemma ResolveThenHit(movies: map<int, Movie>, fetch: int -> Response, later: int -> Response, movieId: int, dumps: Serializer)
    requires var r := Resolve(movies, fetch, movieId, dumps); r.Ok? && r.value.id == movieId
    ensures var m := Resolve(movies, fetch, movieId, dumps).value;
            Resolve(movies[m.id := m], later, movieId, dumps) == Ok(m)
  {
  }

  /** When the upstream answers a request for one id with a body carrying
      another, the body is stored under the other id; the requested id still
      misses, and asking again for it conflicts with the row just stored. */
  lemma ResolveUnderForeignId(movies: map<int, Movie>, fetch: int -> Response, movieId: int, dumps: Serializer)
    requires movieId !in movies
    requires var r := Resolve(movies, fetch, movieId, dumps); r.Ok? && r.value.id != movieId
    ensures var m := Resolve(movies, fetch, movieId, dumps).value;
            movieId !in movies[m.id := m] && Resolve(movies[m.id := m], fetch, movieId, dumps) == Err(MovieIdConflict)
  {
  }

  /** The first half of add_favourite: the stored movie on a hit, with no
      upstream request; on a miss one request, and the fetched body stored. */
  method ResolveMovie(db: Db, upstream: Upstream, movieId: int, dumps: Serializer) returns (r: Result<Movie>)
    requires db.Valid()
    modifies db, upstream
    ensures db.Valid()
    ensures r == Resolve(old(db.movies), upstream.byId, movieId, dumps)
    ensures db.movies == if r.Ok? then old(db.movies)[r.value.id := r.value] else old(db.movies)
    ensures upstream.calls == old(upstream.calls) + (if movieId in old(db.movies) then 0 else 1)
    ensures db.profiles == old(db.profiles) && db.nameIndex == old(db.nameIndex) && db.passwordHashes == old(db.passwordHashes)
    ensures db.favorites == old(db.favorites) && db.nextFavoriteId == old(db.nextFavoriteId)
    ensures db.nextProfileId == old(db.nextProfileId)
  {
    var cached := db.GetMovie(movieId);
    if cached.Some? {
      assert db.movies[movieId := cached.value] == db.movies;
      return Ok(cached.value);
    }
    var fetched := upstream.MovieSearchById(movieId);
    if fetched.Err? {
      return Err(fetched.error);
    }
    r := db.AddMovie(fetched.value, dumps);
  }

  /** add_favourite: resolves the movie, caching it on a miss, and links it to
      the token's profile. On a hit no upstream request is sent; on a miss
      exactly one. When resolving or linking fails, neither table changes. */
  method AddFavourite(db: Db, upstream: Upstream, movieId: int, token: TokenPayload, dumps: Serializer) returns (r: Result<MovieData>)
    requires db.Valid()
    modifies db, upstream
    ensures db.Valid()
    ensures upstream.calls == old(upstream.calls) + (if movieId in old(db.movies) then 0 else 1)
    ensures var res := Resolve(old(db.movies), upstream.byId, movieId, dumps);
            && (res.Err? ==> r == Err(res.error))
            && (res.Ok? ==> (r.Ok? <==> old(db.GetFavorite(res.value.id, token.profileId)).None? && token.profileId in old(db.profiles)))
            && (res.Ok? && r.Err? ==> r.error == FavoriteAlreadyExists)
            && (r.Ok? ==> r.value == MovieData(res.value.data)
                          && db.movies == old(db.movies)[res.value.id := res.value]
                          && db.favorites == old(db.favorites) + [Favorite(old(db.nextFavoriteId), token.profileId, res.value.id)])
    ensures r.Err? ==> db.movies == old(db.movies) && db.favorites == old(db.favorites)
    ensures r.Ok? ==> db.GetAllFavorites(token.profileId) == old(db.GetAllFavorites(token.profileId)) + [r.value]
    ensures InsertOnly(old(db.movies), db.movies)
    ensures db.profiles == old(db.profiles) && db.nameIndex == old(db.nameIndex) && db.passwordHashes == old(db.passwordHashes)
    ensures db.nextProfileId == old(db.nextProfileId)
    ensures db.nextFavoriteId == old(db.nextFavoriteId) + (if Resolve(old(db.movies), upstream.byId, movieId, dumps).Ok? then 1 else 0)
  {
    var savedMovies := db.movies;
    var resolved := ResolveMovie(db, upstream, movieId, dumps);
    if resolved.Err? {
      return Err(resolved.error);
    }
    var movie := resolved.value;
    ghost var before := db.favorites;
    var link := db.AddFavorite(movie.id, token.profileId);
    if link.Err? {
      // the unit of work is rolled back, the cached movie with it
      db.movies := savedMovies;
      return Err(link.error);
    }
    ListingAfterLink(before, savedMovies, movie, link.value);
    r := Ok(MovieData(movie.data));
  }

  /** The listing after a link to a stored movie is the listing before, with
      that movie's data appended. */
  lemma ListingAfterLink(rows: seq<Favorite>, movies: map<int, Movie>, m: Movie, f: Favorite)
    requires forall i :: 0 <= i < |rows| ==> rows[i].movieId in movies
    requires m.id in movies ==> movies[m.id] == m
    requires f.movieId == m.id
    ensures var after := movies[m.id := m];
            (MoviesData(JoinedIds(rows + [f], after, f.profileId), after)
             == MoviesData(JoinedIds(rows, movies, f.profileId), movies) + [MovieData(m.data)])
  {
    var after := movies[m.id := m];
    JoinedIdsAppend(rows, f, after, f.profileId);
    JoinedIdsNewMovie(rows, movies, m, f.profileId);
    var ids := JoinedIds(rows, movies, f.profileId);
    assert JoinedIds(rows + [f], after, f.profileId) == ids + [m.id];
    var listedBefore, listedAfter := MoviesData(ids, movies), MoviesData(ids + [m.id], after);
    forall i | 0 <= i < |ids| ensures listedAfter[i] == listedBefore[i] {
      assert (ids + [m.id])[i] == ids[i];
    }
    assert listedAfter == listedBefore + [MovieData(m.data)];
  }

  /** remove_favorite: FavoriteNotFound when the profile has no row for the
      movie; otherwise that row is deleted and the movie leaves the listing. */
  method RemoveFavorite(db: Db, movieId: int, token: TokenPayload) returns (r: Result<()>)
    requires db.Valid()
    modifies db
    ensures db.Valid()
    ensures r.Err? <==> old(db.GetFavorite(movieId, token.profileId)).None?
    ensures r.Err? ==> r.error == FavoriteNotFound && db.favorites == old(db.favorites)
    ensures r.Ok? ==> |db.favorites| == |old(db.favorites)| - 1
    ensures forall f :: f in db.favorites <==> f in old(db.favorites) && !Matches(f, movieId, token.profileId)
    ensures JoinedIds(db.favorites, db.movies, token.profileId) == Without(old(JoinedIds(db.favorites, db.movies, token.profileId)), movieId)
    ensures forall other :: other != token.profileId ==>
              JoinedIds(db.favorites, db.movies, other) == old(JoinedIds(db.favorites, db.movies, other))
    ensures db.movies == old(db.movies) && db.profiles == old(db.profiles) && db.passwordHashes == old(db.passwordHashes)
    ensures db.nameIndex == old(db.nameIndex) && db.nextProfileId == old(db.nextProfileId) && db.nextFavoriteId == old(db.nextFavoriteId)
  {
    ghost var before := db.favorites;
    var found := db.GetFavorite(movieId, token.profileId);
    if found.None? {
      DeleteNothing(before, movieId, token.profileId);
      JoinedIdsDelete(before, db.movies, movieId, token.profileId);
      forall other | other != token.profileId
        ensures JoinedIds(db.favorites, db.movies, other) == JoinedIds(before, db.movies, other)
      {
      }
      return Err(FavoriteNotFound);
    }
    db.RemoveFavorite(movieId, token.profileId);
    JoinedIdsDelete(before, db.movies, movieId, token.profileId);
    forall other | other != token.profileId
      ensures JoinedIds(db.favorites, db.movies, other) == JoinedIds(before, db.movies, other)
    {
      JoinedIdsDeleteOther(before, db.movies, movieId, token.profileId, other);
    }
    r := Ok(());
  }

  /** get_favorites: the profile's listing. */
  function GetFavorites(db: Db, token: TokenPayload): (r: Movies)
    reads db
    ensures r.movies == db.GetAllFavorites(token.profileId)
    ensures |r.movies| == |JoinedIds(db.favorites, db.movies, token.profileId)|
  {
    Movies(db.GetAllFavorites(token.profileId))
  }

  /** In a consistent store the listing has one entry per row of the profile,
      in insertion order, and names each movie at most once. */
  lemma FavoritesListing(db: Db, token: TokenPayload)
    requires db.Valid()
    ensures var ids := MovieIdsOf(db.favorites, token.profileId);
            && ids == JoinedIds(db.favorites, db.movies, token.profileId)
            && |GetFavorites(db, token).movies| == |ids|
            && (forall i :: 0 <= i < |ids| ==> GetFavorites(db, token).movies[i] == MovieData(db.movies[ids[i]].data))
            && (forall i, j :: 0 <= i < j < |ids| ==> ids[i] != ids[j])
  {
    JoinedIdsForeignKey(db.favorites, db.movies, token.profileId);
    JoinedIdsDistinct(db.favorites, db.movies, token.profileId);
  }
}

=== FILE: MovieModels.dfy ===
/** The rows of the movie component and the queries over them. The movie table
    caches upstream bodies under the upstream's own id; the favourite table is
    a sequence of rows in insertion order, with a unique (profile, movie) pair. */
module MovieModels {
  import opened Common

  /** An upstream JSON body: its `kinopoiskId` when it carries one, and the
      other fields, kept opaque. */
  datatype Payload = Payload(kinopoiskId: Option<int>, fields: map<string, string>)

  /** json.dumps(body, ensure_ascii=False) */
  type Serializer = Payload -> string

  datatype Movie = Movie(id: int, data: string)

  /** The public view of a stored movie: its serialised body. */
  datatype MovieData = MovieData(data: string)

  datatype Favorite = Favorite(id: int, profileId: int, movieId: int)

  predicate Matches(f: Favorite, movieId: int, profileId: int) {
    f.movieId == movieId && f.profileId == profileId
  }

  /** The unique constraint on (profile_id, movie_id). */
  ghost predicate PairsUnique(rows: seq<Favorite>) {
    forall i, j :: 0 <= i < j < |rows| ==> !Matches(rows[j], rows[i].movieId, rows[i].profileId)
  }

  /** Generated primary keys grow with insertion order, so they are unique. */
  ghost predicate IdsIncreasing(rows: seq<Favorite>) {
    forall i, j :: 0 <= i < j < |rows| ==> rows[i].id < rows[j].id
  }

  ghost predicate LedgerWellFormed(rows: seq<Favorite>) {
    PairsUnique(rows) && IdsIncreasing(rows)
  }

  /** Favorite.get: the row for the pair, if there is one. */
  function FindFavorite(rows: seq<Favorite>, movieId: int, profileId: int): (r: Option<Favorite>)
    ensures r.None? <==> forall i :: 0 <= i < |rows| ==> !Matches(rows[i], movieId, profileId)
    ensures r.Some? ==> r.value in rows && Matches(r.value, movieId, profileId)
  {
    if rows == [] then None
    else if Matches(rows[0], movieId, profileId) then Some(rows[0])
    else
      var r := FindFavorite(rows[1..], movieId, profileId);
      assert forall i :: 1 <= i < |rows| ==> rows[i] == rows[1..][i - 1];
      r
  }

  /** Under the unique constraint the row found is the only row of the pair. */
  lemma FindFavoriteUnique(rows: seq<Favorite>, movieId: int, profileId: int)
    requires PairsUnique(rows)
    ensures var r := FindFavorite(rows, movieId, profileId);
            r.Some? ==> forall i :: 0 <= i < |rows| && Matches(rows[i], movieId, profileId) ==> rows[i] == r.value
  {
    var r := FindFavorite(rows, movieId, profileId);
    if r.Some? {
      var k :| 0 <= k < |rows| && rows[k] == r.value;
      forall i | 0 <= i < |rows| && Matches(rows[i], movieId, profileId) ensures rows[i] == r.value {
      }
    }
  }

  /** delete(Favorite).where(pair): the rows that remain, in insertion order. */
  function DeleteMatching(rows: seq<Favorite>, movieId: int, profileId: int): seq<Favorite>
  {
    if rows == [] then []
    else
      (if Matches(rows[0], movieId, profileId) then [] else [rows[0]])
        + DeleteMatching(rows[1..], movieId, profileId)
  }

  /** The delete removes exactly the rows of the pair. */
  lemma {:induction false} DeleteMatchingRows(rows: seq<Favorite>, movieId: int, profileId: int)
    ensures forall f :: f in DeleteMatching(rows, movieId, profileId) <==> f in rows && !Matches(f, movieId, profileId)
  {
    if rows != [] {
      DeleteMatchingRows(rows[1..], movieId, profileId);
      assert forall f :: f in rows <==> f == rows[0] || f in rows[1..];
    }
  }

  /** With no row for the pair, the delete removes nothing. */
  lemma {:induction false} DeleteNothing(rows: seq<Favorite>, movieId: int, profileId: int)
    requires FindFavorite(rows, movieId, profileId).None?
    ensures DeleteMatching(rows, movieId, profileId) == rows
  {
    if rows != [] {
      assert !Matches(rows[0], movieId, profileId);
      DeleteNothing(rows[1..], movieId, profileId);
      assert rows == [rows[0]] + rows[1..];
    }
  }

  /** The rows after the first of a well-formed ledger form a well-formed ledger. */
  lemma TailWellFormed(rows: seq<Favorite>)
    requires rows != [] && LedgerWellFormed(rows)
    ensures LedgerWellFormed(rows[1..])
  {
    var tail := rows[1..];
    forall i, j | 0 <= i < j < |tail|
      ensures !Matches(tail[j], tail[i].movieId, tail[i].profileId) && tail[i].id < tail[j].id
    {
      assert tail[i] == rows[i + 1] && tail[j] == rows[j + 1];
    }
  }

  /** In a well-formed ledger the first row shares its pair with no later row
      and has the smallest key. */
  lemma HeadApart(rows: seq<Favorite>)
    requires rows != [] && LedgerWellFormed(rows)
    ensures forall g :: g in rows[1..] ==> !Matches(g, rows[0].movieId, rows[0].profileId) && rows[0].id < g.id
  {
    forall g | g in rows[1..] ensures !Matches(g, rows[0].movieId, rows[0].profileId) && rows[0].id < g.id {
      var k :| 0 <= k < |rows[1..]| && rows[1..][k] == g;
      assert rows[k + 1] == g;
    }
  }

  /** A row placed before a well-formed ledger it is apart from keeps it well formed. */
  lemma ConsWellFormed(f: Favorite, rest: seq<Favorite>)
    requires LedgerWellFormed(rest)
    requires forall g :: g in rest ==> !Matches(g, f.movieId, f.profileId) && f.id < g.id
    ensures LedgerWellFormed([f] + rest)
  {
    var r := [f] + rest;
    forall i, j | 0 <= i < j < |r| ensures !Matches(r[j], r[i].movieId, r[i].profileId) && r[i].id < r[j].id {
      assert r[j] == rest[j - 1];
      if i > 0 { assert r[i] == rest[i - 1]; } else { assert r[j] in rest; }
    }
  }

  /** Deleting rows keeps both the pair constraint and the key order. */
  lemma {:induction false} DeleteKeepsLedger(rows: seq<Favorite>, movieId: int, profileId: int)
    requires LedgerWellFormed(rows)
    ensures LedgerWellFormed(DeleteMatching(rows, movieId, profileId))
  {
    if rows != [] {
      TailWellFormed(rows);
      DeleteKeepsLedger(rows[1..], movieId, profileId);
      if !Matches(rows[0], movieId, profileId) {
        HeadApart(rows);
        DeleteMatchingRows(rows[1..], movieId, profileId);
        ConsWellFormed(rows[0], DeleteMatching(rows[1..], movieId, profileId));
      }
    }
  }

  /** Under the pair constraint the delete removes one row when the pair is
      present and none otherwise. */
  lemma {:induction false} DeleteCount(rows: seq<Favorite>, movieId: int, profileId: int)
    requires PairsUnique(rows)
    ensures |DeleteMatching(rows, movieId, profileId)|
         == |rows| - (if FindFavorite(rows, movieId, profileId).Some? then 1 else 0)
  {
    if rows != [] {
      var tail := rows[1..];
      assert PairsUnique(tail) by {
        forall i, j | 0 <= i < j < |tail| ensures !Matches(tail[j], tail[i].movieId, tail[i].profileId) {
          assert tail[i] == rows[i + 1] && tail[j] == rows[j + 1];
        }
      }
      DeleteCount(tail, movieId, profileId);
      if Matches(rows[0], movieId, profileId) {
        forall k | 0 <= k < |tail| ensures !Matches(tail[k], movieId, profileId) {
          assert tail[k] == rows[k + 1];
        }
      } else {
        assert FindFavorite(rows, movieId, profileId) == FindFavorite(tail, movieId, profileId);
      }
    }
  }

  /** Appending a row with a new pair and a larger key keeps the ledger well formed. */
  lemma AppendKeepsLedger(rows: seq<Favorite>, f: Favorite)
    requires LedgerWellFormed(rows)
    requires FindFavorite(rows, f.movieId, f.profileId).None?
    requires forall i :: 0 <= i < |rows| ==> rows[i].id < f.id
    ensures LedgerWellFormed(rows + [f])
  {
    var r := rows + [f];
    forall i, j | 0 <= i < j < |r| ensures !Matches(r[j], r[i].movieId, r[i].profileId) && r[i].id < r[j].id {
      if j == |rows| {
        assert r[i] == rows[i];
        assert !Matches(rows[i], f.movieId, f.profileId);
      } else {
        assert r[i] == rows[i] && r[j] == rows[j];
      }
    }
  }

  /** The join behind Favorite.get_all: the movie ids of the profile's rows
      whose movie is stored, in insertion order. */
  function JoinedIds(rows: seq<Favorite>, movies: map<int, Movie>, profileId: int): (r: seq<int>)
    ensures forall id :: id in r ==> id in movies
    ensures |r| <= |rows|
  {
    if rows == [] then []
    else
      (if rows[0].profileId == profileId && rows[0].movieId in movies then [rows[0].movieId] else [])
        + JoinedIds(rows[1..], movies, profileId)
  }

  /** The public view of each stored movie named in `ids`, in the same order. */
  function MoviesData(ids: seq<int>, movies: map<int, Movie>): (r: seq<MovieData>)
    requires forall i :: 0 <= i < |ids| ==> ids[i] in movies
    ensures |r| == |ids|
    ensures forall i :: 0 <= i < |ids| ==> r[i] == MovieData(movies[ids[i]].data)
  {
    if ids == [] then [] else [MovieData(movies[ids[0]].data)] + MoviesData(ids[1..], movies)
  }

  /** The movie ids of the profile's rows, in insertion order, read without the join. */
  function MovieIdsOf(rows: seq<Favorite>, profileId: int): seq<int>
  {
    if rows == [] then []
    else (if rows[0].profileId == profileId then [rows[0].movieId] else []) + MovieIdsOf(rows[1..], profileId)
  }

  /** When every row refers to a stored movie, the join loses no row: the
      listing names the movie of each of the profile's rows, one per row. */
  lemma {:induction false} JoinedIdsForeignKey(rows: seq<Favorite>, movies: map<int, Movie>, profileId: int)
    requires forall i :: 0 <= i < |rows| ==> rows[i].movieId in movies
    ensures JoinedIds(rows, movies, profileId) == MovieIdsOf(rows, profileId)
  {
    if rows != [] {
      JoinedIdsForeignKey(rows[1..], movies, profileId);
    }
  }

  /** A movie appears in the listing exactly when it is stored and the profile
      has a row for it. */
  lemma {:induction false} JoinedIdsMember(rows: seq<Favorite>, movies: map<int, Movie>, movieId: int, profileId: int)
    ensures movieId in JoinedIds(rows, movies, profileId)
        <==> movieId in movies && FindFavorite(rows, movieId, profileId).Some?
  {
    if rows != [] {
      JoinedIdsMember(rows[1..], movies, movieId, profileId);
    }
  }

  /** A profile with no rows has an empty listing. */
  lemma {:induction false} JoinedIdsNone(rows: seq<Favorite>, movies: map<int, Movie>, profileId: int)
    requires forall i :: 0 <= i < |rows| ==> rows[i].profileId != profileId
    ensures JoinedIds(rows, movies, profileId) == []
  {
    if rows != [] {
      JoinedIdsNone(rows[1..], movies, profileId);
    }
  }

  /** Appending a row adds its movie at the end of its profile's listing, and
      nothing to the other listings. */
  lemma {:induction false} JoinedIdsAppend(rows: seq<Favorite>, f: Favorite, movies: map<int, Movie>, profileId: int)
    ensures JoinedIds(rows + [f], movies, profileId)
         == JoinedIds(rows, movies, profileId)
            + (if f.profileId == profileId && f.movieId in movies then [f.movieId] else [])
  {
    if rows == [] {
      assert rows + [f] == [f];
    } else {
      assert (rows + [f])[1..] == rows[1..] + [f];
      JoinedIdsAppend(rows[1..], f, movies, profileId);
    }
  }

  /** Storing a movie no row refers to yet leaves every listing unchanged. */
  lemma {:induction false} JoinedIdsNewMovie(rows: seq<Favorite>, movies: map<int, Movie>, m: Movie, profileId: int)
    requires forall i :: 0 <= i < |rows| ==> rows[i].movieId in movies
    ensures JoinedIds(rows, movies[m.id := m], profileId) == JoinedIds(rows, movies, profileId)
  {
    if rows != [] {
      JoinedIdsNewMovie(rows[1..], movies, m, profileId);
    }
  }

  /** The sequence `s` with every occurrence of `x` removed. */
  function Without(s: seq<int>, x: int): (r: seq<int>)
    ensures forall y :: y in r <==> y in s && y != x
  {
    if s == [] then []
    else (if s[0] == x then [] else [s[0]]) + Without(s[1..], x)
  }

  lemma WithoutCons(x: int, s: seq<int>, y: int)
    ensures Without([x] + s, y) == (if x == y then [] else [x]) + Without(s, y)
  {
    assert ([x] + s)[1..] == s;
  }

  /** The listing of a sequence of rows starting with `f`. */
  lemma JoinedIdsCons(f: Favorite, rest: seq<Favorite>, movies: map<int, Movie>, profileId: int)
    ensures JoinedIds([f] + rest, movies, profileId)
         == (if f.profileId == profileId && f.movieId in movies then [f.movieId] else []) + JoinedIds(rest, movies, profileId)
  {
    assert ([f] + rest)[1..] == rest;
  }

  /** Deleting the rows of a pair removes that movie from that profile's listing. */
  lemma {:induction false} JoinedIdsDelete(rows: seq<Favorite>, movies: map<int, Movie>, movieId: int, profileId: int)
    ensures JoinedIds(DeleteMatching(rows, movieId, profileId), movies, profileId)
         == Without(JoinedIds(rows, movies, profileId), movieId)
  {
    if rows != [] {
      var f, tail := rows[0], rows[1..];
      assert rows == [f] + tail;
      var rest := DeleteMatching(tail, movieId, profileId);
      JoinedIdsDelete(tail, movies, movieId, profileId);
      JoinedIdsCons(f, tail, movies, profileId);
      if f.profileId == profileId && f.movieId in movies {
        WithoutCons(f.movieId, JoinedIds(tail, movies, profileId), movieId);
      } else {
        assert JoinedIds(rows, movies, profileId) == JoinedIds(tail, movies, profileId);
      }
      if Matches(f, movieId, profileId) {
        assert DeleteMatching(rows, movieId, profileId) == rest;
      } else {
        assert DeleteMatching(rows, movieId, profileId) == [f] + rest;
        JoinedIdsCons(f, rest, movies, profileId);
      }
    }
  }

  /** Deleting the rows of a pair leaves the listing of every other profile as it was. */
  lemma {:induction false} JoinedIdsDeleteOther(rows: seq<Favorite>, movies: map<int, Movie>, movieId: int, profileId: int, other: int)
    requires other != profileId
    ensures JoinedIds(DeleteMatching(rows, movieId, profileId), movies, other) == JoinedIds(rows, movies, other)
  {
    if rows != [] {
      var f, tail := rows[0], rows[1..];
      assert rows == [f] + tail;
      var rest := DeleteMatching(tail, movieId, profileId);
      JoinedIdsDeleteOther(tail, movies, movieId, profileId, other);
      JoinedIdsCons(f, tail, movies, other);
      if Matches(f, movieId, profileId) {
        assert DeleteMatching(rows, movieId, profileId) == rest;
        assert JoinedIds(rows, movies, other) == JoinedIds(tail, movies, other);
      } else {
        assert DeleteMatching(rows, movieId, profileId) == [f] + rest;
        JoinedIdsCons(f, rest, movies, other);
      }
    }
  }

  /** Under the pair constraint a listing names each movie at most once. */
  lemma {:induction false} JoinedIdsDistinct(rows: seq<Favorite>, movies: map<int, Movie>, profileId: int)
    requires PairsUnique(rows)
    ensures var ids := JoinedIds(rows, movies, profileId);
            forall i, j :: 0 <= i < j < |ids| ==> ids[i] != ids[j]
  {
    if rows != [] {
      var tail := rows[1..];
      assert PairsUnique(tail) by {
        forall i, j | 0 <= i < j < |tail| ensures !Matches(tail[j], tail[i].movieId, tail[i].profileId) {
          assert tail[i] == rows[i + 1] && tail[j] == rows[j + 1];
        }
      }
      JoinedIdsDistinct(tail, movies, profileId);
      var f := rows[0];
      if f.profileId == profileId && f.movieId in movies {
        forall k | 0 <= k < |tail| ensures !Matches(tail[k], f.movieId, profileId) {
          assert tail[k] == rows[k + 1];
        }
        JoinedIdsMember(tail, movies, f.movieId, profileId);
        var ids := JoinedIds(rows, movies, profileId);
        var rest := JoinedIds(tail, movies, profileId);
        assert rows == [f] + tail;
        JoinedIdsCons(f, tail, movies, profileId);
        assert ids == [f.movieId] + rest;
        forall i, j | 0 <= i < j < |ids| ensures ids[i] != ids[j] {
          if i == 0 { assert ids[j] == rest[j - 1] && ids[j] in rest; }
          else { assert ids[i] == rest[i - 1] && ids[j] == rest[j - 1]; }
        }
      } else {
        assert rows == [f] + tail;
        JoinedIdsCons(f, tail, movies, profileId);
      }
    }
  }

  /** The movie table only grows, and no stored row is ever replaced. */
  ghost predicate InsertOnly(before: map<int, Movie>, after: map<int, Movie>) {
    forall id :: id in before ==> id in after && after[id] == before[id]
  }
}
